=== FILE: README.md ===
# defects4cpp taxonomy catalog and build command, in Dafny

This project models two pieces of defects4cpp, a harness that describes how to
build and test known historical bugs of C/C++ projects inside containers:

- the **taxonomy catalog** (`defects4cpp/taxonomy/__init__.py`): the record
  types `Common`, `Gcov`, `Defect`, `MetaInfo` and `TestType`; the `MetaData`
  loader that turns a project's parsed `meta.json` into those records, with the
  `@DPP_MAKE_JOB@` substitution, the test-type mapping and the zero-padded patch
  paths; the lazily loaded, cached `info`/`common`/`defects` properties; and the
  read-only `Taxonomy` registry;
- the **build command** (`defects4cpp/processor/build.py`): `BuildCommand.run`,
  which picks the build or the coverage build command and the streaming flag,
  and the no-op hooks of `BuildCommandScript` and `teardown`.

Everything is a pure function over immutable values. A `MetaData` object is a
value; each property access returns the new state next to its result. The
parsed descriptor (`meta`), the configured make-job value (`job`), the
discovered module names, the set of existing files and `read_config` are
parameters.

Modules:

- `Wrappers` (`wrappers.dfy`): `Option` and `Result`.
- `Text` (`text.dfy`): Python's `format(n, "04")` (`Pad4`), `str.replace`
  (`ReplaceAll`), and `os.path.join` (`PathJoin`). `Split` cuts a string where
  the left-to-right scan finds the pattern, and `Join` glues the pieces with a
  separator. `str.replace` is re-joining with the new text. The scan is pinned
  down by `SplitAtLeftmost`: it cuts at the leftmost occurrence and resumes
  after it, so an occurrence that overlaps the one just cut is consumed. The
  marker `@DPP_MAKE_JOB@` can overlap itself.
- `Descriptor` (`descriptor.dfy`): the JSON value and plain navigation (`Deep`).
- `Records` (`records.dfy`): the record types and `LoadError`
  (`DppTaxonomyInitError(key, type name)` or a type error).
- `Loader` (`loader.dfy`): the three load steps.
- `Meta` (`metadata.dfy`): `MetaData`, `_load` and the cached properties.
- `Registry` (`registry.dfy`): `Taxonomy`.
- `Build` (`build.dfy`): `BuildCommand.run`, the hooks, `teardown` and `help`.

Behaviour of the code worth knowing:

- Loading is not all-or-nothing. `_load` runs the defect step, then the Common
  step, then the info step. A failure in a later step keeps what the earlier
  steps stored.
- The steps' names and error tags are swapped. `_load_info` builds the defect
  list and tags its missing-key errors "MetaInfo". `_load_defects` builds the
  `MetaInfo` and tags its errors "Defect". The Dafny functions are named after
  what they build (`LoadDefectList`, `LoadInfo`) and keep the source's tags.
- An unknown test-type string gives `None`, not an error.
- An empty defect list is falsy, so every `defects` access with an empty list
  reloads the descriptor and overwrites `info` and `common`.

## Model

| member | source | states |
|---|---|---|
| `Text.Pad4Decodes` | defects4cpp/taxonomy/__init__.py:92-93 | the `:04` rendering of a non-negative index is all digits, at least four wide, and its decimal value is the index; a negative index renders as '-' followed by digits worth its magnitude, four characters or more in all |
| `Text.Pad4Injective` | defects4cpp/taxonomy/__init__.py:92-93 | two indices with the same padded rendering are equal |
| `Text.Pad4Examples` | defects4cpp/taxonomy/__init__.py:92-93 | 3 renders as "0003", 15 as "0015", 12345 as "12345" (no truncation) and -3 as "-003" |
| `Text.SplitJoin` | defects4cpp/taxonomy/__init__.py:104 | cutting a string where the scan finds the pattern and gluing the pieces back with the pattern restores the string |
| `Text.ReplaceIsJoin` | defects4cpp/taxonomy/__init__.py:104 | `str.replace` equals the scan's pieces joined by the new text, so the new text stands exactly where the scan cut |
| `Text.SplitPiecesMarkerFree` | defects4cpp/taxonomy/__init__.py:104 | no piece contains the pattern; an occurrence overlapping a replaced one is not replaced (it is consumed), so this does not mean every occurrence is replaced |
| `Text.SplitAtLeftmost` | defects4cpp/taxonomy/__init__.py:104 | for the leftmost occurrence of the pattern, the first piece is everything before it, and the remaining pieces are the split of what follows that occurrence |
| `Text.ReplaceAtLeftmost` | defects4cpp/taxonomy/__init__.py:104 | `str.replace` keeps the text before the leftmost occurrence, puts the new text in its place, and continues replacing only after the occurrence |
| `Text.SplitSingletonIff` | defects4cpp/taxonomy/__init__.py:104 | the string is cut into more than one piece exactly when the pattern occurs in it |
| `Text.ReplaceUnchangedIff` | defects4cpp/taxonomy/__init__.py:104 | `str.replace` leaves a string unchanged if and only if the pattern does not occur in it or the replacement equals the pattern |
| `Text.ReplaceLeavesNoOccurrence` | defects4cpp/taxonomy/__init__.py:104 | with a non-empty replacement sharing no character with the pattern, no occurrence of the pattern survives |
| `Text.PathJoin` | defects4cpp/taxonomy/__init__.py:144 | `os.path.join` keeps an absolute second part as is; otherwise the result is the two parts concatenated, with one '/' inserted between them exactly when the first part is non-empty and does not already end in '/' |
| `Text.PathJoinBasename` | defects4cpp/taxonomy/__init__.py:144 | joining a single component (non-empty, no '/') onto any directory gives a path whose last component is that component |
| `Loader.Get` | defects4cpp/taxonomy/__init__.py:115-128 | a chain of key lookups succeeds exactly when every key is present along the way and then yields the nested value; a failure is a type error or a missing-key error carrying the step's record-type tag |
| `Loader.GetReportsFailure` | defects4cpp/taxonomy/__init__.py:127-128 | a missing-key error names a key that really is absent from the object reached so far; a type error means some step reached a non-object |
| `Loader.ToEnum` | defects4cpp/taxonomy/__init__.py:107-113 | a test type is produced only from its own spelling, and any value that is not one of the three spellings gives `None` |
| `Loader.ToEnumRoundTrip` | defects4cpp/taxonomy/__init__.py:13-16 | each test type's spelling maps back to it: "automake" to Automake (1), "ctest" to CTest (2), "gtest" to GoogleTest (3); other values give `None` |
| `Loader.ReplaceMakeJobFlags` | defects4cpp/taxonomy/__init__.py:102-105 | the vector keeps its length; each element is its marker-free pieces rejoined with the job value; an element is unchanged exactly when it has no marker (or the job value is the marker itself); with a non-empty job value that shares no character with the marker, no marker remains |
| `Loader.OverlappingMarkersReplacedOnce` | defects4cpp/taxonomy/__init__.py:102-105 | in `@DPP_MAKE_JOB@DPP_MAKE_JOB@` the two markers share an '@', and only the first is replaced, leaving `job + "DPP_MAKE_JOB@"` |
| `Loader.PatchFileNames` | defects4cpp/taxonomy/__init__.py:92-93 | both patch paths sit under `path/patch/`, carry the same index as at least four decimal digits whose value is the index, and differ only in the `-buggy.patch`/`-split.patch` suffix |
| `Loader.PatchPathExamples` | defects4cpp/taxonomy/__init__.py:92-93 | index 3 gives `0003-buggy.patch`/`0003-split.patch` and index 15 gives `0015-…` |
| `Loader.PatchPathsDistinct` | defects4cpp/taxonomy/__init__.py:92-93 | distinct indices give distinct buggy and distinct split paths, and a buggy path is never a split path |
| `Loader.MakeDefect` | defects4cpp/taxonomy/__init__.py:90-95 | a defect is produced exactly for an entry with a hash, a patch index and a case count; it copies hash and cases and derives both patch paths from the one index; the first of the reads `hash`, `patch`, `cases` that fails decides the error: `TaxonomyInitError(key, "MetaInfo")` for a missing key, `Malformed` for a non-object entry or a value of the wrong type |
| `Loader.BuildDefects` | defects4cpp/taxonomy/__init__.py:89-97 | the list succeeds exactly when every entry is well formed; it then has the entries' length and order, element i being the defect of entry i; a failure is the error of the first bad entry |
| `Loader.LoadDefectList` | defects4cpp/taxonomy/__init__.py:87-99 | the defect step succeeds exactly when `defects` is an array of well-formed entries, and then returns one defect per entry in order; a failing read of `defects` (missing key or not an array) decides the error, otherwise the first bad entry's; errors carry the "MetaInfo" tag |
| `Loader.MakeDefectNamesMissingKey` | defects4cpp/taxonomy/__init__.py:98-99 | whichever of the reads `hash`, `patch`, `cases` fails first decides the entry's error (a missing `hash` gives ("hash", "MetaInfo")); conversely a missing-key error names one of the three keys, absent from the entry |
| `Loader.LoadDefectListNamesMissingKey` | defects4cpp/taxonomy/__init__.py:87-99 | a missing `defects` gives ("defects", "MetaInfo") and any failing read of it decides the error; otherwise the first ill-formed entry's error is the step's error; conversely a missing-key error names `defects` missing from the descriptor or an entry key absent from some entry |
| `Loader.JobCommand` | defects4cpp/taxonomy/__init__.py:117-121 | a command vector is read exactly when the path holds an array of strings, and the result is that array with the job substitution applied element by element |
| `Loader.VerbatimStrings` | defects4cpp/taxonomy/__init__.py:123 | the gcov `exclude` list is read exactly when the path holds an array of strings, and is returned unchanged |
| `Loader.LoadCommon` | defects4cpp/taxonomy/__init__.py:101-128 | the Common step succeeds exactly when all seven fields are present with the right shape; the four command vectors are substituted with the same job value, the test type is the mapped spelling, gcov `exclude` is copied element by element and gcov `command` is stored as whatever JSON value it is; the first of the seven reads, in source order, that fails decides the error: the lookup's missing-key error tagged "Common" or `Malformed` |
| `Loader.LoadCommonNamesMissingKey` | defects4cpp/taxonomy/__init__.py:115-128 | whichever of the seven reads fails first, in source order, decides the Common step's error; conversely a missing-key error names a key absent along one of the seven paths |
| `Loader.MissingTestTypeReported` | defects4cpp/taxonomy/__init__.py:119 | a `common` object without `test-type`, with the two build vectors present, fails with ("test-type", "Common") |
| `Loader.LoadInfo` | defects4cpp/taxonomy/__init__.py:130-136 | the info step succeeds exactly when `info.url`, `info.short-desc` and `info.vcs` are strings, and builds `MetaInfo` from them in that order; the first of the three reads that fails decides the error: the lookup's missing-key error tagged "Defect" or `Malformed` |
| `Loader.LoadInfoNamesMissingKey` | defects4cpp/taxonomy/__init__.py:130-136 | whichever of `info.url`, `info.short-desc`, `info.vcs` fails first decides the info step's error; conversely a missing-key error names a key absent along one of those paths |
| `Meta.Dockerfile` | defects4cpp/taxonomy/__init__.py:58-60 | the Dockerfile is the file `Dockerfile` directly inside the project directory |
| `Meta.DockerfileIsStable` | defects4cpp/taxonomy/__init__.py:58-60 | no property access moves the Dockerfile |
| `Meta.Load` | defects4cpp/taxonomy/__init__.py:80-85 | name and directory are kept; loading succeeds exactly when all three steps do and then leaves `info` and `common` set; a failed load never touches `info` |
| `Meta.LoadKeepsEarlierSteps` | defects4cpp/taxonomy/__init__.py:80-85 | the error is that of the first failing step, and the steps before it keep their stored records (the defect list survives a Common failure, `common` survives an info failure) |
| `Meta.Info` | defects4cpp/taxonomy/__init__.py:62-66 | a cached `MetaInfo` is returned with the state untouched, whatever the descriptor holds; otherwise the access leaves exactly the state the load leaves (partial on failure), succeeds exactly when the load does, and a returned value is the cached one |
| `Meta.CommonOf` | defects4cpp/taxonomy/__init__.py:68-72 | the same for `common`: a cached record returns untouched; otherwise the state is the load's, and success holds exactly when the load succeeds |
| `Meta.FailedCommonAccessKeepsDefects` | defects4cpp/taxonomy/__init__.py:70-71 | a loading `common` access whose Common step fails raises that step's error yet leaves the new defect list stored, with `info` and `common` still unset |
| `Meta.Defects` | defects4cpp/taxonomy/__init__.py:74-78 | a non-empty cached list is returned untouched; an empty one counts as not loaded and triggers a load, after which the state is the load's and the access succeeds exactly when the load does |
| `Meta.AccessesPreserveConsistency` | defects4cpp/taxonomy/__init__.py:62-85 | starting from a fresh entry, `info` is never set without `common` |
| `Meta.FirstAccessPopulatesAll` | defects4cpp/taxonomy/__init__.py:62-85 | a successful loading access leaves all three fields holding the records of the same descriptor |
| `Meta.RepeatedAccessIsCached` | defects4cpp/taxonomy/__init__.py:62-78 | after a successful access the same property returns the same value without reading any descriptor (for `defects`, when the list is non-empty) |
| `Meta.EmptyDefectListReloads` | defects4cpp/taxonomy/__init__.py:74-78 | with an empty defect list, a `defects` access reloads the descriptor and overwrites `common` and `info`, and the list stays empty, so the next access reloads again |
| `Meta.FailedAccessStaysReloadable` | defects4cpp/taxonomy/__init__.py:62-66 | a failed first `info` access leaves `info` unset, and a later access with a correct descriptor returns its `MetaInfo` |
| `Registry.FirstOccurrences` | defects4cpp/taxonomy/__init__.py:142-147 | the registry's key order holds every discovered name exactly once and nothing else |
| `Registry.NewTaxonomy` | defects4cpp/taxonomy/__init__.py:140-147 | the registry's keys are exactly the discovered names, each mapped to an unloaded `MetaData` of that name rooted at `base/name` |
| `Registry.Len` | defects4cpp/taxonomy/__init__.py:161-165 | the length equals the number of names iteration yields, and iteration yields exactly the registry's keys |
| `Registry.MetaJsonPath` | defects4cpp/taxonomy/__init__.py:168-169 | the checked descriptor path is `join(base, key)` followed by `meta.json`, with a '/' between them unless the directory is empty or already ends in '/'; its last component is `meta.json` |
| `Registry.Lookup` | defects4cpp/taxonomy/__init__.py:167-171 | a lookup succeeds exactly when `base/key/meta.json` exists and the key was discovered; a missing descriptor fails the assertion "Taxonomy 'key' does not exist" before the dictionary is consulted; a success returns the entry for that key and directory |
| `Registry.SetItem` | defects4cpp/taxonomy/__init__.py:153-155 | setting any key fails with "set operator is not allowed" |
| `Registry.DelItem` | defects4cpp/taxonomy/__init__.py:157-159 | deleting any key fails with "del operator is not allowed" |
| `Registry.RegistryIsReadOnly` | defects4cpp/taxonomy/__init__.py:153-159 | every mutation attempt fails, and no series of attempts changes the registry |
| `Build.Run` | defects4cpp/processor/build.py:37-48 | a request holds exactly one script, whose command is the coverage build vector when `coverage` is set and the build vector otherwise; `stream` holds exactly when `verbose` does; the worktree and the metadata come from `read_config`, and the metadata is passed through unchanged when `common` is already cached; a run that must load fails exactly when the load does, with the load's error, and on success returns exactly the entry the load produced (all three records set) |
| `Build.RunUsesDescriptorVector` | defects4cpp/processor/build.py:41-45 | when `run` loads the descriptor, the script's command is the descriptor's `build` (or `build-coverage`) vector after job substitution, and exactly that vector when none of its elements holds the marker |
| `Build.RunWrapsSelectedCommand` | defects4cpp/processor/build.py:41-45 | whenever the `common` access succeeds, `run` succeeds with exactly one script, holding the command selected by the coverage flag |
| `Build.HooksLeaveRequestUnchanged` | defects4cpp/processor/build.py:12-24 | no sequence of `before`/`output`/`after` calls on the scripts, followed by `teardown`, changes the request or its scripts |

A few members are plain definitions, with no contract of their own. The rows
above state what they promise:

- `Text.Pad4`: the `:04` format (`__init__.py:92-93`), through `Text.Pad4Decodes` and `Text.Pad4Injective`.
- `Text.ReplaceAll`: `str.replace` (`__init__.py:104`), through `Text.ReplaceIsJoin` and `Text.ReplaceUnchangedIff`.
- `Loader.BuggyPatch` and `Loader.SplitPatch`: the two patch f-strings (`__init__.py:92-93`), through `Loader.PatchFileNames`.
- `Build.SelectedCommand`: the coverage switch (`build.py:41-45`), through `Build.Run`.
- `Registry.Keys` (`__init__.py:161-162`) and `Meta.NewMetaData` (`__init__.py:51-56`), through `Registry.NewTaxonomy` and `Meta.FirstAccessPopulatesAll`.
- `Build.ScriptHook` (`build.py:8-24`) and `Build.Teardown` (`build.py:53-54`), through `Build.HooksLeaveRequestUnchanged`.
- `Build.SetupMessage` (`build.py:50-51`), the announced text "Building " followed by the project name.
- The constant `Build.Help` (`build.py:56-58`, "Build local with a build tool from docker").

## Left out

- File reading and JSON decoding in `_load`: the descriptor is passed in already parsed, so a missing `meta.json` or invalid JSON is not modelled. JSON floating-point numbers are not represented.
- Module discovery (`iter_modules`) and `os.path.exists`: they are parameters (`discovered`, `existing`), and `base` stands for the package directory.
- `config.DPP_MAKE_JOB`: a string parameter `job`. `errors.DppTaxonomyInitError` is the datatype `TaxonomyInitError(key, recordType)`.
- Argument parsing (`create_common_project_parser`, the usage string set in `BuildCommand.__init__`) and `read_config` are not part of this model: the parsed arguments are the record `BuildArgs`, and `read_config` is the function parameter `readConfig`.
- `setup` logs through `message.info`; only the announced text (`SetupMessage`) is modelled. The `DockerCommand` base classes and container execution are not part of this model.
- Object identity: a `MetaData` is a value here. Loading done on an entry returned by `Registry.Lookup` is not written back into the registry, whereas the source shares one object.
- The `MutableMapping` mixin methods (`get`, `__contains__`, `keys`, …) are inherited, not defined in these files, and are not modelled.
- Loader.MakeDefect: a non-string hash, a non-integer patch index (a boolean included) or a non-integer case count is a `Malformed` error, whereas the source stores such hash and case values unchecked and formats a boolean index as 0 or 1. Because the model checks each value's type as it reads it, a wrongly typed `hash` is reported as `Malformed` even when a later key is missing, where the source reports the missing key.
- Loader.LoadDefectList: a `defects` value that is a string or an object is `Malformed`, whereas the source iterates it (an empty string or object gives an empty list, a non-empty one fails with a type error on its first element).
- Loader.JobCommand: a command value that is a string or an object is `Malformed`, whereas `replace_make_job_flags` iterates its characters or keys; an array with a non-string element is `Malformed` here and fails in the source too, since that element has no `replace` method.
- Loader.LoadCommon: a command vector or the gcov `exclude` list that is a string or an object is `Malformed`, whereas the source iterates its characters or keys; an `exclude` list whose elements are not strings is `Malformed`, whereas the source copies them as they are. The gcov `command` is stored verbatim, whatever its JSON type, as the source does. Because each read checks its shape at once, such a value is reported as `Malformed` even when a later key is missing, where the source reports the missing key.
- Loader.VerbatimStrings: reads only the gcov `exclude` list and accepts only an array of strings. A string or an object there is `Malformed`, whereas the source iterates its characters or keys. An array with non-string elements is `Malformed`, whereas the source copies it. A number, a boolean or null is `Malformed` here and a type error in the source alike.
- Loader.LoadInfo: a non-string `url`, `short-desc` or `vcs` is `Malformed`, whereas the source stores it unchecked; such a value is reported as `Malformed` even when a later key is missing, where the source reports the missing key.
- Registry.FirstOccurrences: states which names the key order holds, not that they appear in order of first discovery.

=== FILE: build.dfy ===
/**
 * The `build` command: `run` turns the parsed arguments into an execution
 * request holding exactly one script, the build or the coverage build
 * command of the project. Argument parsing and `read_config` are not part of
 * this model: the arguments arrive as a record and `read_config` as the
 * function parameter `readConfig`, returning the project's `MetaData` and
 * the worktree. Reading `metadata.common` may load the descriptor, which is
 * passed in as `meta` with the make-job value `job`.
 */
module Build {
  import opened Wrappers
  import opened Text
  import opened Descriptor
  import opened Records
  import opened Loader
  import opened Meta

  /** The fields of the parsed arguments that `run` reads. */
  datatype BuildArgs = BuildArgs(path: string, coverage: bool, verbose: bool)

  /** `BuildCommandScript`: one command vector to run in the container. */
  datatype BuildScript = BuildScript(command: seq<string>)

  /** `DockerExecInfo`: what to run, where, and whether to stream output. */
  datatype ExecInfo = ExecInfo(metadata: MetaData, worktree: string, commands: seq<BuildScript>, stream: bool)

  /** The `help` property. */
  const Help: string := "Build local with a build tool from docker"

  /** The command vector `run` wraps: the coverage build when asked for, the plain build otherwise. */
  function SelectedCommand(c: Common, coverage: bool): seq<string> {
    if coverage then c.buildCoverageCommand else c.buildCommand
  }

  /** `BuildCommand.run`. */
  function Run(args: BuildArgs, readConfig: string -> (MetaData, string), meta: Json, job: string)
    : (r: Result<ExecInfo, LoadError>)
    ensures var md := readConfig(args.path).0;
            r.Success? ==> && |r.value.commands| == 1
                           && r.value.metadata.common.Some?
                           && r.value.commands[0].command
                              == (if args.coverage then r.value.metadata.common.value.buildCoverageCommand
                                  else r.value.metadata.common.value.buildCommand)
                           && (r.value.stream <==> args.verbose)
                           && r.value.worktree == readConfig(args.path).1
                           && r.value.metadata.name == md.name && r.value.metadata.path == md.path
    ensures var md := readConfig(args.path).0;
            md.common.Some? ==> r.Success? && r.value.metadata == md
    ensures var md := readConfig(args.path).0;
            md.common.None? ==> (r.Success? <==> Load(md, meta, job).error.None?)
    ensures var md := readConfig(args.path).0;
            md.common.None? && r.Success? ==> r.value.metadata == Load(md, meta, job).state
    ensures var md := readConfig(args.path).0;
            md.common.None? && r.Failure? ==> Some(r.error) == Load(md, meta, job).error
  {
    var config := readConfig(args.path);
    var a := CommonOf(config.0, meta, job);
    match a.result
    case Failure(e) => Failure(e)
    case Success(c) =>
      Success(ExecInfo(a.state, config.1, [BuildScript(SelectedCommand(c, args.coverage))], args.verbose))
  }

  /**
   * When `run` has to load the descriptor, the script's command is the
   * descriptor's `build` (or `build-coverage`) vector after the job
   * substitution, and exactly that vector when none of its elements holds
   * the placeholder.
   */
  lemma RunUsesDescriptorVector(args: BuildArgs, readConfig: string -> (MetaData, string), meta: Json, job: string)
    ensures var md := readConfig(args.path).0;
            md.common.None? && Load(md, meta, job).error.None? ==>
            var raw := StringsAt(meta, if args.coverage then BuildCoveragePath else BuildPath).value;
            var r := Run(args, readConfig, meta, job);
            && r.Success?
            && Substituted(raw, r.value.commands[0].command, job)
            && ((forall i :: 0 <= i < |raw| ==> !Contains(raw[i], Marker)) ==> r.value.commands[0].command == raw)
  {
    var md := readConfig(args.path).0;
    if md.common.None? && Load(md, meta, job).error.None? {
      var c := LoadCommon(meta, job).value;
      FirstAccessPopulatesAll(md, meta, job);
      RunWrapsSelectedCommand(args, readConfig, meta, job);
      var raw := StringsAt(meta, if args.coverage then BuildCoveragePath else BuildPath).value;
      var cmd := SelectedCommand(c, args.coverage);
      assert Substituted(raw, cmd, job);
      UnmarkedVectorUnchanged(raw, cmd, job);
    }
  }

  /** `run` wraps the command selected from whatever `common` the access returned. */
  lemma RunWrapsSelectedCommand(args: BuildArgs, readConfig: string -> (MetaData, string), meta: Json, job: string)
    ensures var a := CommonOf(readConfig(args.path).0, meta, job);
            var r := Run(args, readConfig, meta, job);
            a.result.Success? ==> r.Success? && r.value.commands == [BuildScript(SelectedCommand(a.result.value, args.coverage))]
  {
  }

  /** Substitution leaves a vector without placeholders as it is. */
  lemma UnmarkedVectorUnchanged(raw: seq<string>, cmd: seq<string>, job: string)
    requires Substituted(raw, cmd, job)
    ensures (forall i :: 0 <= i < |raw| ==> !Contains(raw[i], Marker)) ==> cmd == raw
  {
    if forall i :: 0 <= i < |raw| ==> !Contains(raw[i], Marker) {
      forall i | 0 <= i < |raw| ensures cmd[i] == raw[i] {
        ReplaceUnchangedIff(raw[i], Marker, job);
      }
    }
  }

  // ---------------------------------------------------------------------
  // Lifecycle hooks
  // ---------------------------------------------------------------------

  /** The calls the executor makes on a script while running it. */
  datatype Hook =
    | Before
    | Output(code: int, chunk: string)
    | After(finalCode: Option<int>, output: Option<string>)

  /** `before`, `output` and `after` of `BuildCommandScript`: all do nothing. */
  function ScriptHook(s: BuildScript, info: ExecInfo, h: Hook): BuildScript {
    match h
    case Before => s
    case Output(_, _) => s
    case After(_, _) => s
  }

  /** `BuildCommand.teardown`: does nothing. */
  function Teardown(info: ExecInfo): ExecInfo {
    info
  }

  /** The line `setup` announces; the logging itself is not modelled. */
  function SetupMessage(info: ExecInfo): string {
    "Building " + info.metadata.name
  }

  /** One hook call on the script at index `script`. */
  datatype Step = Step(script: nat, hook: Hook)

  /** The request after the executor's hook calls, in order, followed by `teardown`. */
  function Execute(info: ExecInfo, trace: seq<Step>): ExecInfo
    decreases |trace|
  {
    if trace == [] then Teardown(info)
    else
      var st := trace[0];
      var next :=
        if st.script < |info.commands| then
          info.(commands := info.commands[st.script := ScriptHook(info.commands[st.script], info, st.hook)])
        else info;
      Execute(next, trace[1..])
  }

  /** No sequence of hook calls, nor `teardown`, changes the request or its scripts. */
  lemma {:induction false} HooksLeaveRequestUnchanged(info: ExecInfo, trace: seq<Step>)
    ensures Execute(info, trace) == info
    decreases |trace|
  {
    if trace != [] {
      var st := trace[0];
      if st.script < |info.commands| {
        assert info.commands[st.script := info.commands[st.script]] == info.commands;
      }
      HooksLeaveRequestUnchanged(info, trace[1..]);
    }
  }
}

=== FILE: descriptor.dfy ===
/**
 * The parsed project descriptor (`meta.json`) as an abstract JSON value, and
 * plain navigation through nested objects.
 */
module Descriptor {
  import opened Wrappers

  /** A decoded JSON document. Floating-point numbers are not represented. */
  datatype Json =
    | JNull
    | JBool(b: bool)
    | JInt(n: int)
    | JStr(s: string)
    | JArr(items: seq<Json>)
    | JObj(fields: map<string, Json>)

  /** The value reached by following `keys` through nested objects, if every step exists. */
  function Deep(v: Json, keys: seq<string>): Option<Json>
    decreases |keys|
  {
    if keys == [] then Some(v)
    else match v
      case JObj(m) => if keys[0] in m then Deep(m[keys[0]], keys[1..]) else None
      case _ => None
  }

  /** `v` is an object without the key `k`. */
  predicate LacksKey(v: Option<Json>, k: string) {
    v.Some? && v.value.JObj? && k !in v.value.fields
  }

  /** `v` is present but not an object, so it cannot be indexed by a key. */
  predicate NotObject(v: Option<Json>) {
    v.Some? && !v.value.JObj?
  }

  /** Some key along `keys` is the first one missing from the object reached so far. */
  predicate MissingKeyAlong(v: Json, keys: seq<string>, k: string) {
    exists j :: 0 <= j < |keys| && keys[j] == k && LacksKey(Deep(v, keys[..j]), k)
  }

  /** Some step along `keys` reaches a value that is not an object. */
  predicate NonObjectAlong(v: Json, keys: seq<string>) {
    exists j :: 0 <= j < |keys| && NotObject(Deep(v, keys[..j]))
  }

  function AsString(v: Json): Option<string> {
    if v.JStr? then Some(v.s) else None
  }

  function AsInt(v: Json): Option<int> {
    if v.JInt? then Some(v.n) else None
  }

  function AsArray(v: Json): Option<seq<Json>> {
    if v.JArr? then Some(v.items) else None
  }

  /** An array whose every element is a string, as the sequence of those strings. */
  function AsStrings(v: Json): (r: Option<seq<string>>)
    ensures r.Some? <==> v.JArr? && forall i :: 0 <= i < |v.items| ==> v.items[i].JStr?
    ensures r.Some? ==> |r.value| == |v.items| && forall i :: 0 <= i < |v.items| ==> v.items[i] == JStr(r.value[i])
  {
    if v.JArr? && forall i :: 0 <= i < |v.items| ==> v.items[i].JStr? then
      Some(seq(|v.items|, i requires 0 <= i < |v.items| => v.items[i].s))
    else None
  }

  /** The string array found at `keys`, if there is one. */
  function StringsAt(v: Json, keys: seq<string>): Option<seq<string>> {
    match Deep(v, keys)
    case Some(x) => AsStrings(x)
    case None => None
  }

  /** The string found at `keys`, if there is one. */
  function StringAt(v: Json, keys: seq<string>): Option<string> {
    match Deep(v, keys)
    case Some(x) => AsString(x)
    case None => None
  }
}

=== FILE: loader.dfy ===
/**
 * The descriptor loader of `MetaData`: the three steps that turn a parsed
 * `meta.json` into the defect list, the `Common` configuration and the
 * `MetaInfo` record, with the `@DPP_MAKE_JOB@` substitution, the test-type
 * mapping and the patch-path derivation they use.
 *
 * The source's step names do not match what the steps build: `_load_info`
 * builds the defect list and tags its errors "MetaInfo", `_load_defects`
 * builds the `MetaInfo` and tags its errors "Defect". The functions here are
 * named after what they build and keep the source's tags.
 */
module Loader {
  import opened Wrappers
  import opened Text
  import opened Descriptor
  import opened Records

  /** The placeholder replaced by the configured make-job value. */
  const Marker: string := "@DPP_MAKE_JOB@"

  // ---------------------------------------------------------------------
  // Key lookup with the source's error behaviour
  // ---------------------------------------------------------------------

  /**
   * `meta[k0][k1]...`: a missing key raises `KeyError(k)`, which the step
   * turns into `TaxonomyInitError(k, tag)`; indexing a non-object fails with
   * a type error (`Malformed`).
   */
  function Get(v: Json, keys: seq<string>, tag: string): (r: Result<Json, LoadError>)
    ensures r.Success? <==> Deep(v, keys).Some?
    ensures r.Success? ==> Deep(v, keys) == Some(r.value)
    ensures r.Failure? ==> r.error == Malformed || r.error.recordType == tag
    decreases |keys|
  {
    if keys == [] then Success(v)
    else match v
      case JObj(m) =>
        if keys[0] in m then Get(m[keys[0]], keys[1..], tag)
        else Failure(TaxonomyInitError(keys[0], tag))
      case _ => Failure(Malformed)
  }

  /** A failed lookup names a key that really is missing, or stops at a non-object. */
  lemma {:induction false} GetReportsFailure(v: Json, keys: seq<string>, tag: string)
    ensures Get(v, keys, tag) == Failure(Malformed) ==> NonObjectAlong(v, keys)
    ensures Get(v, keys, tag).Failure? && Get(v, keys, tag).error.TaxonomyInitError? ==>
              MissingKeyAlong(v, keys, Get(v, keys, tag).error.key)
    decreases |keys|
  {
    if keys != [] {
      assert keys[..0] == [];
      match v
      case JObj(m) =>
        if keys[0] in m {
          var rest := keys[1..];
          GetReportsFailure(m[keys[0]], rest, tag);
          var r := Get(v, keys, tag);
          if r == Failure(Malformed) {
            var j :| 0 <= j < |rest| && NotObject(Deep(m[keys[0]], rest[..j]));
            assert keys[..j + 1][1..] == rest[..j];
            assert NotObject(Deep(v, keys[..j + 1]));
          } else if r.Failure? && r.error.TaxonomyInitError? {
            var j :| 0 <= j < |rest| && rest[j] == r.error.key && LacksKey(Deep(m[keys[0]], rest[..j]), r.error.key);
            assert keys[..j + 1][1..] == rest[..j];
            assert keys[j + 1] == r.error.key && LacksKey(Deep(v, keys[..j + 1]), r.error.key);
          }
        } else {
          assert LacksKey(Deep(v, keys[..0]), keys[0]);
        }
      case _ =>
        assert NotObject(Deep(v, keys[..0]));
    }
  }
  /** The shape a step needs the value at a key path to have. */
  datatype Shape = AnyValue | AString | AnInt | AnArray | AStringArray

  predicate Fits(v: Json, shape: Shape) {
    match shape
    case AnyValue => true
    case AString => v.JStr?
    case AnInt => v.JInt?
    case AnArray => v.JArr?
    case AStringArray => AsStrings(v).Some?
  }

  /** One read a load step performs: a key path and the shape it expects there. */
  datatype Read = Read(keys: seq<string>, shape: Shape)

  /**
   * The error one read raises on its own: the lookup's missing-key error
   * (tagged with `tag`) or type error, or `Malformed` for a value of the
   * wrong shape; `None` when the read succeeds.
   */
  function ReadError(v: Json, read: Read, tag: string): (r: Option<LoadError>)
    ensures r.None? <==> Deep(v, read.keys).Some? && Fits(Deep(v, read.keys).value, read.shape)
    ensures Get(v, read.keys, tag).Failure? ==> r == Some(Get(v, read.keys, tag).error)
  {
    match Get(v, read.keys, tag)
    case Failure(e) => Some(e)
    case Success(x) => if Fits(x, read.shape) then None else Some(Malformed)
  }

  /** `steps[i]` fails and every read before it succeeds. */
  predicate FirstFailingRead(v: Json, steps: seq<Read>, tag: string, i: int) {
    && 0 <= i < |steps|
    && (forall j :: 0 <= j < i ==> ReadError(v, steps[j], tag).None?)
    && ReadError(v, steps[i], tag).Some?
  }

  /** The reads of one defect entry, in the order the comprehension performs them. */
  const DefectReads: seq<Read> := [Read(["hash"], AString), Read(["patch"], AnInt), Read(["cases"], AnInt)]

  /** The reads of the Common step, in source order. */
  const CommonReads: seq<Read> :=
    [Read(BuildPath, AStringArray), Read(BuildCoveragePath, AStringArray), Read(TestTypePath, AnyValue),
     Read(TestPath, AStringArray), Read(TestCoveragePath, AStringArray), Read(GcovExcludePath, AStringArray),
     Read(GcovCommandPath, AnyValue)]

  /** The reads of the info step, in source order. */
  const InfoReads: seq<Read> := [Read(UrlPath, AString), Read(DescriptionPath, AString), Read(VcsPath, AString)]


  /** A value of the wrong JSON shape is a type error. */
  function Typed<T>(o: Option<T>): (r: Result<T, LoadError>)
    ensures r.Success? <==> o.Some?
    ensures r.Success? ==> r.value == o.value
    ensures r.Failure? ==> r.error == Malformed
  {
    match o
    case Some(x) => Success(x)
    case None => Failure(Malformed)
  }

  // ---------------------------------------------------------------------
  // The two helpers of the Common step
  // ---------------------------------------------------------------------

  /** The descriptor spelling of each test type. */
  function TestTypeName(t: TestType): string {
    match t
    case Automake => "automake"
    case CTest => "ctest"
    case GoogleTest => "gtest"
  }

  /** `to_enum`: the three known spellings map to their member; anything else to `None`. */
  function ToEnum(v: Json): (r: Option<TestType>)
    ensures r.Some? ==> v == JStr(TestTypeName(r.value))
    ensures r.None? ==> forall t: TestType :: v != JStr(TestTypeName(t))
  {
    if v == JStr("automake") then Some(Automake)
    else if v == JStr("ctest") then Some(CTest)
    else if v == JStr("gtest") then Some(GoogleTest)
    else None
  }

  /** Every test type's spelling maps back to it, with the enum values 1, 2 and 3. */
  lemma ToEnumRoundTrip(t: TestType)
    ensures ToEnum(JStr(TestTypeName(t))) == Some(t)
    ensures ToEnum(JStr("automake")) == Some(Automake) && Automake.Value() == 1
    ensures ToEnum(JStr("ctest")) == Some(CTest) && CTest.Value() == 2
    ensures ToEnum(JStr("gtest")) == Some(GoogleTest) && GoogleTest.Value() == 3
    ensures ToEnum(JStr("GTest")) == None && ToEnum(JNull) == None
  {
  }

  /**
   * `replace_make_job_flags`: each option with the `@DPP_MAKE_JOB@`
   * occurrences found by a left-to-right scan replaced by `job`.
   */
  function ReplaceMakeJobFlags(opts: seq<string>, job: string): (r: seq<string>)
    ensures |r| == |opts|
    ensures forall i :: 0 <= i < |opts| ==> r[i] == Join(Split(opts[i], Marker), job)
    ensures forall i :: 0 <= i < |opts| ==> (r[i] == opts[i] <==> !Contains(opts[i], Marker) || job == Marker)
    ensures |job| > 0 && Foreign(job, Marker) ==> forall i :: 0 <= i < |r| ==> !Contains(r[i], Marker)
  {
    var r := seq(|opts|, i requires 0 <= i < |opts| => ReplaceAll(opts[i], Marker, job));
    assert forall i :: 0 <= i < |opts| ==> MarkerReplaced(opts[i], r[i], job) by {
      forall i | 0 <= i < |opts| ensures MarkerReplaced(opts[i], r[i], job) {
        ReplaceFacts(opts[i], job);
      }
    }
    r
  }
  /**
   * The marker begins and ends with '@', so two markers can share that
   * character. Only the leftmost of two overlapping markers is replaced.
   */
  lemma OverlappingMarkersReplacedOnce(job: string)
    ensures ReplaceMakeJobFlags(["@DPP_MAKE_JOB@DPP_MAKE_JOB@"], job) == [job + "DPP_MAKE_JOB@"]
  {
    var s := "@DPP_MAKE_JOB@DPP_MAKE_JOB@";
    assert OccursAt(s, Marker, 0) && OccursAt(s, Marker, 13);
    ReplaceAtLeftmost(s, Marker, job, 0);
    assert s[14..] == "DPP_MAKE_JOB@";
  }

  /** What the substitution promises of one option `s` and its result `t`. */
  predicate MarkerReplaced(s: string, t: string, job: string) {
    && t == Join(Split(s, Marker), job)
    && (t == s <==> !Contains(s, Marker) || job == Marker)
    && (|job| > 0 && Foreign(job, Marker) ==> !Contains(t, Marker))
  }

  lemma ReplaceFacts(s: string, job: string)
    ensures MarkerReplaced(s, ReplaceAll(s, Marker, job), job)
  {
    ReplaceIsJoin(s, Marker, job);
    ReplaceUnchangedIff(s, Marker, job);
    if |job| > 0 && Foreign(job, Marker) {
      ReplaceLeavesNoOccurrence(s, Marker, job);
    }
  }

  /** `opts` after the job substitution, element by element. */
  predicate Substituted(raw: seq<string>, out: seq<string>, job: string) {
    |out| == |raw| && forall i :: 0 <= i < |raw| ==> out[i] == ReplaceAll(raw[i], Marker, job)
  }

  // ---------------------------------------------------------------------
  // Defect step (`_load_info` in the source)
  // ---------------------------------------------------------------------

  function BuggyPatch(path: string, n: int): string {
    path + "/patch/" + Pad4(n) + "-buggy.patch"
  }

  function SplitPatch(path: string, n: int): string {
    path + "/patch/" + Pad4(n) + "-split.patch"
  }

  /**
   * Both patch files sit in `path/patch/`, named by the same index written in
   * at least four zero-padded decimal digits, and differ only in their suffix.
   */
  lemma PatchFileNames(path: string, n: nat)
    ensures var pre := path + "/patch/";
            var b := BuggyPatch(path, n);
            var s := SplitPatch(path, n);
            && |b| == |pre| + Max(4, |Digits(n)|) + 12
            && b[..|pre|] == pre
            && b[|b| - 12..] == "-buggy.patch"
            && AllDigits(b[|pre|..|b| - 12])
            && ParseDecimal(b[|pre|..|b| - 12]) == n
            && |s| == |b| && s[..|s| - 12] == b[..|b| - 12]
            && s[|s| - 12..] == "-split.patch"
  {
    Pad4Decodes(n);
    var pre := path + "/patch/";
    var b := BuggyPatch(path, n);
    assert b[|pre|..|b| - 12] == Pad4(n);
  }

  /** Patch index 3 names `0003-buggy.patch` and `0003-split.patch`; index 15 names `0015-…`. */
  lemma PatchPathExamples(path: string)
    ensures BuggyPatch(path, 3) == path + "/patch/0003-buggy.patch"
    ensures SplitPatch(path, 3) == path + "/patch/0003-split.patch"
    ensures BuggyPatch(path, 15) == path + "/patch/0015-buggy.patch"
    ensures SplitPatch(path, 15) == path + "/patch/0015-split.patch"
  {
    Pad4Examples();
  }

  /** Distinct indices give distinct patch files, and no buggy patch is a split patch. */
  lemma PatchPathsDistinct(path: string, n: int, m: int)
    ensures BuggyPatch(path, n) == BuggyPatch(path, m) ==> n == m
    ensures SplitPatch(path, n) == SplitPatch(path, m) ==> n == m
    ensures BuggyPatch(path, n) != SplitPatch(path, m)
  {
    PatchIndexPart(path, n);
    PatchIndexPart(path, m);
    Pad4Injective(n, m);
  }

  /** The index part of either patch path sits between the directory prefix and the 12-character suffix. */
  lemma PatchIndexPart(path: string, n: int)
    ensures var pre := path + "/patch/";
            var b := BuggyPatch(path, n);
            var s := SplitPatch(path, n);
            && |b| == |s| == |pre| + |Pad4(n)| + 12
            && b[|pre|..|b| - 12] == Pad4(n) && s[|pre|..|s| - 12] == Pad4(n)
            && b[|b| - 11] == 'b' && s[|s| - 11] == 's'
  {
    var pre := path + "/patch/";
    var mid := Pad4(n);
    SliceMiddle(pre, mid, "-buggy.patch");
    SliceMiddle(pre, mid, "-split.patch");
  }

  lemma SliceMiddle(pre: string, mid: string, suf: string)
    requires |suf| == 12
    ensures var x := pre + mid + suf;
            && |x| == |pre| + |mid| + 12
            && x[|pre|..|x| - 12] == mid
            && x[|x| - 11] == suf[1]
  {
  }

  /** A defect entry with a string hash and integer patch index and case count. */
  predicate EntryWellFormed(e: Json) {
    && e.JObj?
    && "hash" in e.fields && e.fields["hash"].JStr?
    && "patch" in e.fields && e.fields["patch"].JInt?
    && "cases" in e.fields && e.fields["cases"].JInt?
  }

  /** `d` is the defect the entry `e` describes for a project rooted at `path`. */
  predicate DefectFromEntry(path: string, e: Json, d: Defect) {
    && EntryWellFormed(e)
    && d.hash == e.fields["hash"].s
    && d.cases == e.fields["cases"].n
    && d.buggyPatch == BuggyPatch(path, e.fields["patch"].n)
    && d.splitPatch == SplitPatch(path, e.fields["patch"].n)
  }

  /** One element of the defect comprehension: hash, then patch, then cases. */
  function MakeDefect(path: string, e: Json): (r: Result<Defect, LoadError>)
    ensures r.Success? <==> EntryWellFormed(e)
    ensures r.Success? ==> DefectFromEntry(path, e, r.value)
    ensures r.Failure? ==> r.error == Malformed || r.error.recordType == "MetaInfo"
    ensures var h := ReadError(e, DefectReads[0], "MetaInfo");
            var p := ReadError(e, DefectReads[1], "MetaInfo");
            var c := ReadError(e, DefectReads[2], "MetaInfo");
            && (h.Some? ==> r == Failure(h.value))
            && (h.None? && p.Some? ==> r == Failure(p.value))
            && (h.None? && p.None? && c.Some? ==> r == Failure(c.value))
  {
    var hash :- Get(e, ["hash"], "MetaInfo");
    var h :- Typed(AsString(hash));
    var patch :- Get(e, ["patch"], "MetaInfo");
    var n :- Typed(AsInt(patch));
    var cases :- Get(e, ["cases"], "MetaInfo");
    var c :- Typed(AsInt(cases));
    Success(Defect(h, BuggyPatch(path, n), SplitPatch(path, n), c))
  }

  /**
   * The defect comprehension over the entries, in order; the first entry
   * that fails decides the error.
   */
  function BuildDefects(path: string, entries: seq<Json>): (r: Result<seq<Defect>, LoadError>)
    ensures r.Success? <==> forall i :: 0 <= i < |entries| ==> EntryWellFormed(entries[i])
    ensures r.Success? ==> |r.value| == |entries|
                           && forall i :: 0 <= i < |entries| ==> DefectFromEntry(path, entries[i], r.value[i])
    ensures r.Failure? ==> exists i :: 0 <= i < |entries| && MakeDefect(path, entries[i]) == Failure(r.error)
                                      && forall j :: 0 <= j < i ==> EntryWellFormed(entries[j])
    decreases |entries|
  {
    if entries == [] then Success([])
    else
      var d :- MakeDefect(path, entries[0]);
      var ds :- BuildDefects(path, entries[1..]);
      Success([d] + ds)
  }

  /** `_load_info`: the defect list built from the descriptor's `defects` array. */
  function LoadDefectList(path: string, meta: Json): (r: Result<seq<Defect>, LoadError>)
    ensures var d := Deep(meta, ["defects"]);
            r.Success? <==> d.Some? && d.value.JArr?
                            && forall i :: 0 <= i < |d.value.items| ==> EntryWellFormed(d.value.items[i])
    ensures var d := Deep(meta, ["defects"]);
            r.Success? ==> |r.value| == |d.value.items|
                           && forall i :: 0 <= i < |r.value| ==> DefectFromEntry(path, d.value.items[i], r.value[i])
    ensures r.Failure? ==> r.error == Malformed || r.error.recordType == "MetaInfo"
    ensures var rd := ReadError(meta, Read(["defects"], AnArray), "MetaInfo");
            rd.Some? ==> r == Failure(rd.value)
  {
    var raw :- Get(meta, ["defects"], "MetaInfo");
    var entries :- Typed(AsArray(raw));
    BuildDefects(path, entries)
  }

  // ---------------------------------------------------------------------
  // Common step (`_load_common`)
  // ---------------------------------------------------------------------

  const BuildPath: seq<string> := ["common", "build", "command"]
  const BuildCoveragePath: seq<string> := ["common", "build-coverage", "command"]
  const TestTypePath: seq<string> := ["common", "test-type"]
  const TestPath: seq<string> := ["common", "test", "command"]
  const TestCoveragePath: seq<string> := ["common", "test-coverage", "command"]
  const GcovExcludePath: seq<string> := ["common", "gcov", "exclude"]
  const GcovCommandPath: seq<string> := ["common", "gcov", "command"]

  /** The keys the Common step reads, in the order it reads them. */
  const CommonPaths: seq<seq<string>> :=
    [BuildPath, BuildCoveragePath, TestTypePath, TestPath, TestCoveragePath, GcovExcludePath, GcovCommandPath]

  predicate CommonWellFormed(meta: Json) {
    && StringsAt(meta, BuildPath).Some?
    && StringsAt(meta, BuildCoveragePath).Some?
    && Deep(meta, TestTypePath).Some?
    && StringsAt(meta, TestPath).Some?
    && StringsAt(meta, TestCoveragePath).Some?
    && StringsAt(meta, GcovExcludePath).Some?
    && Deep(meta, GcovCommandPath).Some?
  }

  /** A command vector read from `keys` and substituted. */
  function JobCommand(meta: Json, keys: seq<string>, job: string): (r: Result<seq<string>, LoadError>)
    ensures r.Success? <==> StringsAt(meta, keys).Some?
    ensures r.Success? ==> Substituted(StringsAt(meta, keys).value, r.value, job)
    ensures r.Failure? ==> r.error == Malformed || r.error.recordType == "Common"
  {
    var raw :- Get(meta, keys, "Common");
    var opts :- Typed(AsStrings(raw));
    Success(ReplaceMakeJobFlags(opts, job))
  }

  /** A string vector read from `keys` verbatim (the gcov `exclude` list). */
  function VerbatimStrings(meta: Json, keys: seq<string>): (r: Result<seq<string>, LoadError>)
    ensures r.Success? <==> StringsAt(meta, keys).Some?
    ensures r.Success? ==> r.value == StringsAt(meta, keys).value
    ensures r.Failure? ==> r.error == Malformed || r.error.recordType == "Common"
  {
    var raw :- Get(meta, keys, "Common");
    Typed(AsStrings(raw))
  }

  /**
   * `_load_common`: the four command vectors substituted with the same job
   * value, the test type mapped, and the gcov settings copied unchanged.
   */
  function LoadCommon(meta: Json, job: string): (r: Result<Common, LoadError>)
    ensures r.Success? <==> CommonWellFormed(meta)
    ensures r.Success? ==> && Substituted(StringsAt(meta, BuildPath).value, r.value.buildCommand, job)
                           && Substituted(StringsAt(meta, BuildCoveragePath).value, r.value.buildCoverageCommand, job)
                           && Substituted(StringsAt(meta, TestPath).value, r.value.testCommand, job)
                           && Substituted(StringsAt(meta, TestCoveragePath).value, r.value.testCoverageCommand, job)
    ensures r.Success? ==> r.value.testType == ToEnum(Deep(meta, TestTypePath).value)
    ensures r.Success? ==> r.value.gcov.exclude == StringsAt(meta, GcovExcludePath).value
                           && r.value.gcov.command == Deep(meta, GcovCommandPath).value
    ensures r.Failure? ==> r.error == Malformed || r.error.recordType == "Common"
    ensures var e0 := ReadError(meta, CommonReads[0], "Common");
            var e1 := ReadError(meta, CommonReads[1], "Common");
            var e2 := ReadError(meta, CommonReads[2], "Common");
            var e3 := ReadError(meta, CommonReads[3], "Common");
            var e4 := ReadError(meta, CommonReads[4], "Common");
            var e5 := ReadError(meta, CommonReads[5], "Common");
            var e6 := ReadError(meta, CommonReads[6], "Common");
            && (e0.Some? ==> r == Failure(e0.value))
            && (e0.None? && e1.Some? ==> r == Failure(e1.value))
            && (e0.None? && e1.None? && e2.Some? ==> r == Failure(e2.value))
            && (e0.None? && e1.None? && e2.None? && e3.Some? ==> r == Failure(e3.value))
            && (e0.None? && e1.None? && e2.None? && e3.None? && e4.Some? ==> r == Failure(e4.value))
            && (e0.None? && e1.None? && e2.None? && e3.None? && e4.None? && e5.Some? ==> r == Failure(e5.value))
            && (e0.None? && e1.None? && e2.None? && e3.None? && e4.None? && e5.None? && e6.Some? ==> r == Failure(e6.value))
  {
    var build :- JobCommand(meta, BuildPath, job);
    var buildCoverage :- JobCommand(meta, BuildCoveragePath, job);
    var testType :- Get(meta, TestTypePath, "Common");
    var test :- JobCommand(meta, TestPath, job);
    var testCoverage :- JobCommand(meta, TestCoveragePath, job);
    var exclude :- VerbatimStrings(meta, GcovExcludePath);
    var gcovCommand :- Get(meta, GcovCommandPath, "Common");
    Success(Common(build, buildCoverage, ToEnum(testType), test, testCoverage, Gcov(exclude, gcovCommand)))
  }

  // ---------------------------------------------------------------------
  // Info step (`_load_defects` in the source)
  // ---------------------------------------------------------------------

  const UrlPath: seq<string> := ["info", "url"]
  const DescriptionPath: seq<string> := ["info", "short-desc"]
  const VcsPath: seq<string> := ["info", "vcs"]

  function InfoString(meta: Json, keys: seq<string>): (r: Result<string, LoadError>)
    ensures r.Success? <==> StringAt(meta, keys).Some?
    ensures r.Success? ==> r.value == StringAt(meta, keys).value
    ensures r.Failure? ==> r.error == Malformed || r.error.recordType == "Defect"
  {
    var raw :- Get(meta, keys, "Defect");
    Typed(AsString(raw))
  }

  /** `_load_defects`: the `MetaInfo` record from `info.url`, `info.short-desc` and `info.vcs`. */
  function LoadInfo(meta: Json): (r: Result<MetaInfo, LoadError>)
    ensures r.Success? <==> StringAt(meta, UrlPath).Some? && StringAt(meta, DescriptionPath).Some?
                            && StringAt(meta, VcsPath).Some?
    ensures r.Success? ==> r.value == MetaInfo(StringAt(meta, UrlPath).value, StringAt(meta, DescriptionPath).value,
                                               StringAt(meta, VcsPath).value)
    ensures r.Failure? ==> r.error == Malformed || r.error.recordType == "Defect"
    ensures var u := ReadError(meta, InfoReads[0], "Defect");
            var d := ReadError(meta, InfoReads[1], "Defect");
            var v := ReadError(meta, InfoReads[2], "Defect");
            && (u.Some? ==> r == Failure(u.value))
            && (u.None? && d.Some? ==> r == Failure(d.value))
            && (u.None? && d.None? && v.Some? ==> r == Failure(v.value))
  {
    var url :- InfoString(meta, UrlPath);
    var description :- InfoString(meta, DescriptionPath);
    var vcs :- InfoString(meta, VcsPath);
    Success(MetaInfo(url, description, vcs))
  }

  // ---------------------------------------------------------------------
  // Which key an error names
  // ---------------------------------------------------------------------

  /**
   * The first of `hash`, `patch`, `cases` that is missing (or of the wrong
   * shape) decides the entry's error; conversely a missing-key error names
   * one of the three keys, absent from the entry.
   */
  lemma MakeDefectNamesMissingKey(path: string, e: Json)
    ensures forall i :: FirstFailingRead(e, DefectReads, "MetaInfo", i) ==>
              MakeDefect(path, e) == Failure(ReadError(e, DefectReads[i], "MetaInfo").value)
    ensures LacksKey(Some(e), "hash") ==> MakeDefect(path, e) == Failure(TaxonomyInitError("hash", "MetaInfo"))
    ensures var r := MakeDefect(path, e);
            r.Failure? && r.error.TaxonomyInitError? ==>
              e.JObj? && r.error.key in {"hash", "patch", "cases"} && r.error.key !in e.fields
  {
    forall i | FirstFailingRead(e, DefectReads, "MetaInfo", i)
      ensures MakeDefect(path, e) == Failure(ReadError(e, DefectReads[i], "MetaInfo").value)
    {
      if i >= 1 {
        assert ReadError(e, DefectReads[0], "MetaInfo").None?;
      }
      if i == 2 {
        assert ReadError(e, DefectReads[1], "MetaInfo").None?;
      }
    }
  }

  /**
   * A missing-key error from the defect step names either a key missing on
   * the way to `defects` or an entry key absent from one of the entries.
   */
  lemma LoadDefectListNamesMissingKey(path: string, meta: Json)
    ensures var rd := ReadError(meta, Read(["defects"], AnArray), "MetaInfo");
            rd.Some? ==> LoadDefectList(path, meta) == Failure(rd.value)
    ensures LacksKey(Some(meta), "defects") ==>
              LoadDefectList(path, meta) == Failure(TaxonomyInitError("defects", "MetaInfo"))
    ensures var d := Deep(meta, ["defects"]);
            d.Some? && d.value.JArr? ==>
              forall i :: 0 <= i < |d.value.items| && !EntryWellFormed(d.value.items[i])
                          && (forall j :: 0 <= j < i ==> EntryWellFormed(d.value.items[j])) ==>
                LoadDefectList(path, meta) == Failure(MakeDefect(path, d.value.items[i]).error)
    ensures var r := LoadDefectList(path, meta);
            r.Failure? && r.error.TaxonomyInitError? ==>
              || MissingKeyAlong(meta, ["defects"], r.error.key)
              || (&& Deep(meta, ["defects"]).Some? && Deep(meta, ["defects"]).value.JArr?
                  && var es := Deep(meta, ["defects"]).value.items;
                     exists i :: 0 <= i < |es| && es[i].JObj? && r.error.key in {"hash", "patch", "cases"}
                                 && r.error.key !in es[i].fields)
  {
    var r := LoadDefectList(path, meta);
    GetReportsFailure(meta, ["defects"], "MetaInfo");
    var d := Deep(meta, ["defects"]);
    if d.Some? && d.value.JArr? {
      var es := d.value.items;
      assert r == BuildDefects(path, es);
      forall i | 0 <= i < |es| && !EntryWellFormed(es[i]) && (forall j :: 0 <= j < i ==> EntryWellFormed(es[j]))
        ensures r == Failure(MakeDefect(path, es[i]).error)
      {
        var k :| 0 <= k < |es| && MakeDefect(path, es[k]) == Failure(r.error)
                 && forall j :: 0 <= j < k ==> EntryWellFormed(es[j]);
        assert !EntryWellFormed(es[k]);
        assert k == i;
      }
    }
    if r.Failure? && r.error.TaxonomyInitError? && Get(meta, ["defects"], "MetaInfo").Success? {
      var es := Deep(meta, ["defects"]).value.items;
      assert r == BuildDefects(path, es);
      var i :| 0 <= i < |es| && MakeDefect(path, es[i]) == Failure(r.error);
      MakeDefectNamesMissingKey(path, es[i]);
    }
  }

  /**
   * The first of the seven reads that fails decides the Common step's error;
   * conversely a missing-key error names a key missing along one of the
   * paths it reads.
   */
  lemma LoadCommonNamesMissingKey(meta: Json, job: string)
    ensures forall i :: FirstFailingRead(meta, CommonReads, "Common", i) ==>
              LoadCommon(meta, job) == Failure(ReadError(meta, CommonReads[i], "Common").value)
    ensures var r := LoadCommon(meta, job);
            r.Failure? && r.error.TaxonomyInitError? ==>
              exists i :: 0 <= i < |CommonPaths| && MissingKeyAlong(meta, CommonPaths[i], r.error.key)
  {
    var r := LoadCommon(meta, job);
    forall i | FirstFailingRead(meta, CommonReads, "Common", i)
      ensures r == Failure(ReadError(meta, CommonReads[i], "Common").value)
    {
      CommonFirstFailingRead(meta, job, i);
    }
    if r.Failure? && r.error.TaxonomyInitError? {
      var i :=
        if Get(meta, BuildPath, "Common").Failure? then 0
        else if Get(meta, BuildCoveragePath, "Common").Failure? then 1
        else if Get(meta, TestTypePath, "Common").Failure? then 2
        else if Get(meta, TestPath, "Common").Failure? then 3
        else if Get(meta, TestCoveragePath, "Common").Failure? then 4
        else if Get(meta, GcovExcludePath, "Common").Failure? then 5
        else 6;
      GetReportsFailure(meta, CommonPaths[i], "Common");
      assert Get(meta, CommonPaths[i], "Common") == Failure(r.error);
    }
  }

  lemma CommonFirstFailingRead(meta: Json, job: string, i: int)
    requires FirstFailingRead(meta, CommonReads, "Common", i)
    ensures LoadCommon(meta, job) == Failure(ReadError(meta, CommonReads[i], "Common").value)
  {
    // Each read before the first failing one succeeded.
    assert i > 0 ==> ReadError(meta, CommonReads[0], "Common").None?;
    assert i > 1 ==> ReadError(meta, CommonReads[1], "Common").None?;
    assert i > 2 ==> ReadError(meta, CommonReads[2], "Common").None?;
    assert i > 3 ==> ReadError(meta, CommonReads[3], "Common").None?;
    assert i > 4 ==> ReadError(meta, CommonReads[4], "Common").None?;
    assert i > 5 ==> ReadError(meta, CommonReads[5], "Common").None?;
  }

  /** Leaving out `common.test-type` (the vectors before it being present) reports ("test-type", "Common"). */
  lemma MissingTestTypeReported(meta: Json, job: string)
    requires LacksKey(Deep(meta, ["common"]), "test-type")
    requires StringsAt(meta, BuildPath).Some? && StringsAt(meta, BuildCoveragePath).Some?
    ensures LoadCommon(meta, job) == Failure(TaxonomyInitError("test-type", "Common"))
  {
  }

  /**
   * The first of `info.url`, `info.short-desc`, `info.vcs` whose read fails
   * decides the info step's error; conversely a missing-key error names a key
   * missing along one of those paths.
   */
  lemma LoadInfoNamesMissingKey(meta: Json)
    ensures forall i :: FirstFailingRead(meta, InfoReads, "Defect", i) ==>
              LoadInfo(meta) == Failure(ReadError(meta, InfoReads[i], "Defect").value)
    ensures var r := LoadInfo(meta);
            r.Failure? && r.error.TaxonomyInitError? ==>
              || MissingKeyAlong(meta, UrlPath, r.error.key)
              || MissingKeyAlong(meta, DescriptionPath, r.error.key)
              || MissingKeyAlong(meta, VcsPath, r.error.key)
  {
    GetReportsFailure(meta, UrlPath, "Defect");
    GetReportsFailure(meta, DescriptionPath, "Defect");
    GetReportsFailure(meta, VcsPath, "Defect");
    forall i | FirstFailingRead(meta, InfoReads, "Defect", i)
      ensures LoadInfo(meta) == Failure(ReadError(meta, InfoReads[i], "Defect").value)
    {
      if i >= 1 {
        assert ReadError(meta, InfoReads[0], "Defect").None?;
      }
      if i == 2 {
        assert ReadError(meta, InfoReads[1], "Defect").None?;
      }
    }
  }
}

=== FILE: metadata.dfy ===
/**
 * `MetaData`: a project's name and directory plus three lazily loaded fields.
 * The object is modelled as a value; every property access returns the
 * (possibly updated) state next to its result. The descriptor that `_load`
 * would read from `path/meta.json` is passed in as `meta`, and the configured
 * make-job value as `job`.
 */
module Meta {
  import opened Wrappers
  import opened Descriptor
  import opened Records
  import opened Loader

  datatype MetaData = MetaData(
    name: string,
    path: string,
    info: Option<MetaInfo>,
    common: Option<Common>,
    defects: seq<Defect>)

  /** A freshly constructed entry: nothing loaded yet. */
  function NewMetaData(name: string, path: string): MetaData {
    MetaData(name, path, None, None, [])
  }

  /** The project's `Dockerfile`, in its directory; loading never moves it. */
  function Dockerfile(m: MetaData): (r: string)
    ensures |r| == |m.path| + 11 && r[..|m.path|] == m.path && r[|m.path|..] == "/Dockerfile"
  {
    m.path + "/Dockerfile"
  }

  /** The state after `_load` and the error it raised, if any. */
  datatype Loaded = Loaded(state: MetaData, error: Option<LoadError>)

  /**
   * `_load`: the defect step, then the Common step, then the info step. Each
   * step stores its record before the next one runs, so a failure part-way
   * leaves the earlier steps' records in place.
   */
  function Load(m: MetaData, meta: Json, job: string): (r: Loaded)
    ensures r.state.name == m.name && r.state.path == m.path
    ensures r.error.None? <==> && LoadDefectList(m.path, meta).Success?
                               && LoadCommon(meta, job).Success?
                               && LoadInfo(meta).Success?
    ensures r.error.None? ==> r.state.info.Some? && r.state.common.Some?
    ensures r.error.Some? ==> r.state.info == m.info
  {
    match LoadDefectList(m.path, meta)
    case Failure(e) => Loaded(m, Some(e))
    case Success(ds) =>
      var m1 := m.(defects := ds);
      match LoadCommon(meta, job)
      case Failure(e) => Loaded(m1, Some(e))
      case Success(c) =>
        var m2 := m1.(common := Some(c));
        match LoadInfo(meta)
        case Failure(e) => Loaded(m2, Some(e))
        case Success(i) => Loaded(m2.(info := Some(i)), None)
  }

  /** The state after a property access and the value it returned or the error it raised. */
  datatype Access<+T> = Access(state: MetaData, result: Result<T, LoadError>)

  /** The `info` property. An existing `MetaInfo` is returned without reading the descriptor. */
  function Info(m: MetaData, meta: Json, job: string): (r: Access<MetaInfo>)
    ensures r.state.name == m.name && r.state.path == m.path
    ensures m.info.Some? ==> r == Access(m, Success(m.info.value))
    ensures r.result.Success? ==> r.state.info == Some(r.result.value)
    ensures m.info.None? ==> (r.result.Success? <==> Load(m, meta, job).error.None?)
    ensures m.info.None? ==> r.state == Load(m, meta, job).state
  {
    if m.info.Some? then Access(m, Success(m.info.value))
    else
      var l := Load(m, meta, job);
      match l.error
      case Some(e) => Access(l.state, Failure(e))
      case None => Access(l.state, Success(l.state.info.value))
  }

  /** The `common` property. An existing `Common` is returned without reading the descriptor. */
  function CommonOf(m: MetaData, meta: Json, job: string): (r: Access<Common>)
    ensures r.state.name == m.name && r.state.path == m.path
    ensures m.common.Some? ==> r == Access(m, Success(m.common.value))
    ensures r.result.Success? ==> r.state.common == Some(r.result.value)
    ensures m.common.None? ==> (r.result.Success? <==> Load(m, meta, job).error.None?)
    ensures m.common.None? ==> r.state == Load(m, meta, job).state
  {
    if m.common.Some? then Access(m, Success(m.common.value))
    else
      var l := Load(m, meta, job);
      match l.error
      case Some(e) => Access(l.state, Failure(e))
      case None => Access(l.state, Success(l.state.common.value))
  }

  /**
   * The `defects` property. A non-empty list is returned without reading the
   * descriptor; an empty list counts as not loaded.
   */
  function Defects(m: MetaData, meta: Json, job: string): (r: Access<seq<Defect>>)
    ensures r.state.name == m.name && r.state.path == m.path
    ensures |m.defects| > 0 ==> r == Access(m, Success(m.defects))
    ensures r.result.Success? ==> r.state.defects == r.result.value
    ensures |m.defects| == 0 ==> (r.result.Success? <==> Load(m, meta, job).error.None?)
    ensures |m.defects| == 0 ==> r.state == Load(m, meta, job).state
  {
    if |m.defects| > 0 then Access(m, Success(m.defects))
    else
      var l := Load(m, meta, job);
      match l.error
      case Some(e) => Access(l.state, Failure(e))
      case None => Access(l.state, Success(l.state.defects))
  }

  // ---------------------------------------------------------------------
  // Properties of loading and caching
  // ---------------------------------------------------------------------

  /**
   * Loading is not all-or-nothing: the error is that of the first failing
   * step, and the steps before it keep what they stored.
   */
  lemma LoadKeepsEarlierSteps(m: MetaData, meta: Json, job: string)
    ensures var r := Load(m, meta, job);
            var d := LoadDefectList(m.path, meta);
            var c := LoadCommon(meta, job);
            var i := LoadInfo(meta);
            && (d.Failure? ==> r == Loaded(m, Some(d.error)))
            && (d.Success? ==> r.state.defects == d.value)
            && (d.Success? && c.Failure? ==> r.state.common == m.common && r.error == Some(c.error))
            && (d.Success? && c.Success? ==> r.state.common == Some(c.value))
            && (d.Success? && c.Success? && i.Failure? ==> r.error == Some(i.error))
            && (r.error.None? ==> r.state.info == Some(i.value))
  {
  }

  /**
   * A `common` access that loads and fails in the Common step still leaves
   * the freshly built defect list behind, with `info` and `common` unset.
   */
  lemma FailedCommonAccessKeepsDefects(m: MetaData, meta: Json, job: string)
    requires m.common.None?
    ensures var r := CommonOf(m, meta, job);
            var d := LoadDefectList(m.path, meta);
            var c := LoadCommon(meta, job);
            d.Success? && c.Failure? ==>
              && r.result == Failure(c.error)
              && r.state == m.(defects := d.value)
  {
  }

  /** Every reachable state has `common` loaded whenever `info` is. */
  predicate Consistent(m: MetaData) {
    m.info.Some? ==> m.common.Some?
  }

  lemma AccessesPreserveConsistency(m: MetaData, meta: Json, job: string)
    requires Consistent(m)
    ensures Consistent(Info(m, meta, job).state)
    ensures Consistent(CommonOf(m, meta, job).state)
    ensures Consistent(Defects(m, meta, job).state)
    ensures Consistent(NewMetaData(m.name, m.path))
  {
  }

  /** A first access that succeeds has populated all three fields from the same descriptor. */
  lemma FirstAccessPopulatesAll(m: MetaData, meta: Json, job: string)
    ensures var a := Info(m, meta, job);
            m.info.None? && a.result.Success? ==>
              && a.state.info == Some(LoadInfo(meta).value)
              && a.state.common == Some(LoadCommon(meta, job).value)
              && a.state.defects == LoadDefectList(m.path, meta).value
    ensures var a := CommonOf(m, meta, job);
            m.common.None? && a.result.Success? ==>
              && a.state.info == Some(LoadInfo(meta).value)
              && a.state.common == Some(LoadCommon(meta, job).value)
              && a.state.defects == LoadDefectList(m.path, meta).value
    ensures var a := Defects(m, meta, job);
            |m.defects| == 0 && a.result.Success? ==>
              && a.state.info == Some(LoadInfo(meta).value)
              && a.state.common == Some(LoadCommon(meta, job).value)
              && a.state.defects == LoadDefectList(m.path, meta).value
  {
  }

  /**
   * After a successful access, the same property returns the same value and
   * leaves the state alone, whatever the descriptor now holds; for `defects`
   * this needs the list to be non-empty.
   */
  lemma RepeatedAccessIsCached(m: MetaData, meta: Json, job: string, meta': Json, job': string)
    ensures var a := Info(m, meta, job);
            a.result.Success? ==> Info(a.state, meta', job') == Access(a.state, a.result)
    ensures var a := CommonOf(m, meta, job);
            a.result.Success? ==> CommonOf(a.state, meta', job') == Access(a.state, a.result)
    ensures var a := Defects(m, meta, job);
            a.result.Success? && |a.result.value| > 0 ==> Defects(a.state, meta', job') == Access(a.state, a.result)
  {
  }

  /**
   * An empty defect list never counts as loaded: every `defects` access
   * reloads the descriptor and overwrites `info` and `common`, even when
   * they were already cached.
   */
  lemma EmptyDefectListReloads(m: MetaData, meta: Json, job: string)
    requires |m.defects| == 0
    ensures var a := Defects(m, meta, job);
            Load(m, meta, job).error.None? && LoadDefectList(m.path, meta).value == [] ==>
            && a.result == Success([])
            && |a.state.defects| == 0
            && a.state.common == Some(LoadCommon(meta, job).value)
            && a.state.info == Some(LoadInfo(meta).value)
  {
  }

  /**
   * A failed first access does not cache `info`, so a later access with a
   * corrected descriptor loads and returns it.
   */
  lemma FailedAccessStaysReloadable(m: MetaData, bad: Json, good: Json, job: string)
    requires m.info.None?
    ensures var a := Info(m, bad, job);
            a.result.Failure? ==>
              && a.state.info.None?
              && (Load(m, good, job).error.None? ==> Info(a.state, good, job).result == Success(LoadInfo(good).value))
  {
  }

  /** Accesses never change the name, the directory or the Dockerfile location. */
  lemma DockerfileIsStable(m: MetaData, meta: Json, job: string)
    ensures Dockerfile(Info(m, meta, job).state) == Dockerfile(m)
    ensures Dockerfile(CommonOf(m, meta, job).state) == Dockerfile(m)
    ensures Dockerfile(Defects(m, meta, job).state) == Dockerfile(m)
    ensures Dockerfile(NewMetaData(m.name, m.path)) == Dockerfile(m)
  {
  }
}

=== FILE: records.dfy ===
/**
 * The catalog's record types: the per-project build/test configuration, the
 * coverage-tool settings, one reproducible defect, the descriptive record,
 * and the loader's error.
 */
module Records {
  import opened Wrappers
  import opened Descriptor

  /** The test framework kind; an `IntEnum` whose members are 1, 2 and 3. */
  datatype TestType = Automake | CTest | GoogleTest {
    function Value(): (v: int)
      ensures 1 <= v <= 3
    {
      match this
      case Automake => 1
      case CTest => 2
      case GoogleTest => 3
    }
  }

  /**
   * Coverage-tool settings. `command` is whatever JSON value the descriptor
   * holds, since the loader stores it without looking at it.
   */
  datatype Gcov = Gcov(exclude: seq<string>, command: Json)

  /**
   * Build and test configuration. `testType` is optional because an
   * unrecognised test-type string is stored as `None`.
   */
  datatype Common = Common(
    buildCommand: seq<string>,
    buildCoverageCommand: seq<string>,
    testType: Option<TestType>,
    testCommand: seq<string>,
    testCoverageCommand: seq<string>,
    gcov: Gcov)

  datatype Defect = Defect(hash: string, buggyPatch: string, splitPatch: string, cases: int)

  datatype MetaInfo = MetaInfo(url: string, description: string, vcs: string)

  /**
   * `TaxonomyInitError` is `DppTaxonomyInitError(key, record type name)`,
   * raised for a missing key. `Malformed` stands for the uncaught `TypeError`
   * or `AttributeError` a value of the wrong JSON shape provokes.
   */
  datatype LoadError = TaxonomyInitError(key: string, recordType: string) | Malformed
}

=== FILE: registry.dfy ===
/**
 * `Taxonomy`: the read-only mapping from project name to `MetaData`, filled
 * once from the discovered project modules. Module discovery and the file
 * system are parameters: `discovered` is the sequence of module names found
 * under `base`, and `existing` is the set of file paths that exist.
 */
module Registry {
  import opened Wrappers
  import opened Text
  import opened Meta

  /** `AssertionError` from the existence check, `KeyError` from the dictionary, `RuntimeError` from mutation. */
  datatype RegistryError = AssertionError(message: string) | KeyError(key: string) | RuntimeError(message: string)

  /** `order` is the dictionary's key order; `store` its contents. */
  datatype Taxonomy = Taxonomy(base: string, order: seq<string>, store: map<string, MetaData>)

  predicate NoDuplicates(s: seq<string>) {
    forall i, j :: 0 <= i < j < |s| ==> s[i] != s[j]
  }

  /** The names in order of first appearance, each once, as a dictionary built from pairs keeps them. */
  function FirstOccurrences(names: seq<string>): (r: seq<string>)
    ensures NoDuplicates(r)
    ensures forall x :: x in r <==> x in names
    decreases |names|
  {
    if names == [] then []
    else
      var init := FirstOccurrences(names[..|names| - 1]);
      var x := names[|names| - 1];
      if x in init then init else init + [x]
  }

  /** Every entry is the unloaded `MetaData` of its own name, rooted at `base/name`. */
  ghost predicate Valid(t: Taxonomy) {
    && NoDuplicates(t.order)
    && (forall n :: n in t.order <==> n in t.store)
    && (forall n :: n in t.store ==> t.store[n] == NewMetaData(n, PathJoin(t.base, n)))
  }

  /** `Taxonomy.__init__`: one entry per discovered project module. */
  function NewTaxonomy(base: string, discovered: seq<string>): (t: Taxonomy)
    ensures Valid(t) && t.base == base
    ensures forall n :: n in t.store <==> n in discovered
  {
    Taxonomy(base, FirstOccurrences(discovered), map n | n in discovered :: NewMetaData(n, PathJoin(base, n)))
  }

  lemma {:induction false} NoDuplicatesCardinality(s: seq<string>)
    requires NoDuplicates(s)
    ensures |set x | x in s| == |s|
    decreases |s|
  {
    if s != [] {
      var init := s[..|s| - 1];
      var last := s[|s| - 1];
      NoDuplicatesCardinality(init);
      assert (set x | x in s) == (set x | x in init) + {last};
      assert last !in (set x | x in init);
    }
  }

  /** `__iter__`: the project names. */
  function Keys(t: Taxonomy): seq<string> {
    t.order
  }

  /** `__len__`: the number of projects, which is the number of names iteration yields. */
  function Len(t: Taxonomy): (n: nat)
    ensures Valid(t) ==> n == |Keys(t)|
    ensures Valid(t) ==> forall k :: k in Keys(t) <==> k in t.store
  {
    assert Valid(t) ==> |t.store| == |t.order| by {
      if Valid(t) {
        NoDuplicatesCardinality(t.order);
        assert t.store.Keys == set x | x in t.order;
      }
    }
    |t.store|
  }

  /** The descriptor file whose existence `_keytransform` asserts. */
  function MetaJsonPath(t: Taxonomy, key: string): (r: string)
    ensures Basename(r) == "meta.json"
    ensures |r| >= |PathJoin(t.base, key)| && r[..|PathJoin(t.base, key)|] == PathJoin(t.base, key)
    ensures var j := PathJoin(t.base, key);
            r == (if j == [] || j[|j| - 1] == '/' then j + "meta.json" else j + "/meta.json")
  {
    PathJoinBasename(PathJoin(t.base, key), "meta.json");
    PathJoin(PathJoin(t.base, key), "meta.json")
  }

  /**
   * `__getitem__`: the existence check on `base/key/meta.json` comes first,
   * then the dictionary lookup.
   */
  function Lookup(t: Taxonomy, key: string, existing: set<string>): (r: Result<MetaData, RegistryError>)
    ensures r.Success? <==> MetaJsonPath(t, key) in existing && key in t.store
    ensures MetaJsonPath(t, key) !in existing ==>
              r == Failure(AssertionError("Taxonomy '" + key + "' does not exist"))
    ensures MetaJsonPath(t, key) in existing && key !in t.store ==> r == Failure(KeyError(key))
    ensures Valid(t) && r.Success? ==> r.value == NewMetaData(key, PathJoin(t.base, key))
  {
    if MetaJsonPath(t, key) !in existing then Failure(AssertionError("Taxonomy '" + key + "' does not exist"))
    else if key !in t.store then Failure(KeyError(key))
    else Success(t.store[key])
  }

  /** `__setitem__`: always refused. */
  function SetItem(t: Taxonomy, key: string, value: MetaData): (r: Result<Taxonomy, RegistryError>)
    ensures r.Failure? && r.error == RuntimeError("set operator is not allowed")
  {
    Failure(RuntimeError("set operator is not allowed"))
  }

  /** `__delitem__`: always refused. */
  function DelItem(t: Taxonomy, key: string): (r: Result<Taxonomy, RegistryError>)
    ensures r.Failure? && r.error == RuntimeError("del operator is not allowed")
  {
    Failure(RuntimeError("del operator is not allowed"))
  }

  datatype Mutation = Assign(key: string, value: MetaData) | Remove(key: string)

  function Attempt(t: Taxonomy, mu: Mutation): Result<Taxonomy, RegistryError> {
    match mu
    case Assign(k, v) => SetItem(t, k, v)
    case Remove(k) => DelItem(t, k)
  }

  /** The registry after a series of mutation attempts, each taking effect only if it succeeds. */
  function Replay(t: Taxonomy, mutations: seq<Mutation>): Taxonomy
    decreases |mutations|
  {
    if mutations == [] then t
    else match Attempt(t, mutations[0])
      case Success(t') => Replay(t', mutations[1..])
      case Failure(_) => Replay(t, mutations[1..])
  }

  /** The registry is read-only: every mutation fails and no series of attempts changes it. */
  lemma {:induction false} RegistryIsReadOnly(t: Taxonomy, mutations: seq<Mutation>)
    ensures Replay(t, mutations) == t
    ensures forall i :: 0 <= i < |mutations| ==> Attempt(t, mutations[i]).Failure?
    decreases |mutations|
  {
    if mutations != [] {
      RegistryIsReadOnly(t, mutations[1..]);
    }
  }
}

=== FILE: text.dfy ===
/**
 * String operations the catalog loader relies on: decimal formatting with
 * Python's sign-aware zero padding (`format(n, "04")`), `str.replace`, and
 * `os.path.join` for two components.
 *
 * `Split` cuts a string at the occurrences the left-to-right scan finds,
 * `Join` glues pieces back with a separator, and replacement is re-joining
 * with the new text. `SplitAtLeftmost` pins the scan down: it cuts at the
 * leftmost occurrence and resumes after it, so overlapping occurrences are
 * consumed leftmost-first.
 */
module Text {

  // ---------------------------------------------------------------------
  // Decimal digits
  // ---------------------------------------------------------------------

  predicate IsDigit(c: char) {
    '0' <= c <= '9'
  }

  predicate AllDigits(s: string) {
    forall i :: 0 <= i < |s| ==> IsDigit(s[i])
  }

  function DigitChar(d: nat): (c: char)
    requires d < 10
    ensures IsDigit(c) && c as int - '0' as int == d
  {
    (d + '0' as int) as char
  }

  function DigitValue(c: char): nat
    requires IsDigit(c)
  {
    c as int - '0' as int
  }

  /** The decimal representation of `n` without leading zeros ("0" for zero), as `str(n)`. */
  function Digits(n: nat): (s: string)
    ensures |s| > 0 && AllDigits(s)
    ensures n > 0 ==> s[0] != '0'
    decreases n
  {
    if n < 10 then [DigitChar(n)] else Digits(n / 10) + [DigitChar(n % 10)]
  }

  /** The value of a string of decimal digits; leading zeros contribute nothing. */
  function ParseDecimal(s: string): nat
    requires AllDigits(s)
  {
    if s == [] then 0 else ParseDecimal(s[..|s| - 1]) * 10 + DigitValue(s[|s| - 1])
  }

  function Zeros(k: nat): (z: string)
    ensures |z| == k && AllDigits(z)
  {
    seq(k, _ => '0')
  }

  /** Left-pads `s` with '0' up to width `w`; never truncates. */
  function ZeroFill(s: string, w: nat): string {
    if |s| >= w then s else Zeros(w - |s|) + s
  }

  function Max(a: int, b: int): int {
    if a >= b then a else b
  }

  /**
   * Python's `format(n, "04")` for an integer: zero padding to a total width
   * of four characters, the sign counting towards the width ("-003" for -3).
   */
  function Pad4(n: int): string {
    if n < 0 then "-" + ZeroFill(Digits(-n), 3) else ZeroFill(Digits(n), 4)
  }

  lemma {:induction false} ParseDigits(n: nat)
    ensures ParseDecimal(Digits(n)) == n
    decreases n
  {
    if n >= 10 {
      var s := Digits(n);
      assert s[..|s| - 1] == Digits(n / 10);
      ParseDigits(n / 10);
    }
  }

  lemma {:induction false} ParseZeros(k: nat)
    ensures ParseDecimal(Zeros(k)) == 0
  {
    if k > 0 {
      assert Zeros(k)[..k - 1] == Zeros(k - 1);
      ParseZeros(k - 1);
    }
  }

  lemma {:induction false} ParseLeadingZeros(k: nat, s: string)
    requires AllDigits(s)
    ensures AllDigits(Zeros(k) + s)
    ensures ParseDecimal(Zeros(k) + s) == ParseDecimal(s)
    decreases |s|
  {
    var t := Zeros(k) + s;
    if s == [] {
      assert t == Zeros(k);
      ParseZeros(k);
    } else {
      assert t[..|t| - 1] == Zeros(k) + s[..|s| - 1];
      ParseLeadingZeros(k, s[..|s| - 1]);
    }
  }

  lemma ZeroFillValue(s: string, w: nat)
    requires AllDigits(s)
    ensures AllDigits(ZeroFill(s, w))
    ensures |ZeroFill(s, w)| == Max(w, |s|)
    ensures ParseDecimal(ZeroFill(s, w)) == ParseDecimal(s)
  {
    if |s| < w {
      ParseLeadingZeros(w - |s|, s);
    }
  }

  /**
   * `Pad4` writes the magnitude of `n` in at least four characters (sign
   * included), as digits whose value is that magnitude.
   */
  lemma Pad4Decodes(n: int)
    ensures n >= 0 ==> AllDigits(Pad4(n)) && |Pad4(n)| == Max(4, |Digits(n)|)
                       && ParseDecimal(Pad4(n)) == n
    ensures n < 0 ==> |Pad4(n)| == Max(4, |Digits(-n)| + 1) && Pad4(n)[0] == '-'
                      && AllDigits(Pad4(n)[1..]) && ParseDecimal(Pad4(n)[1..]) == -n
  {
    if n >= 0 {
      ZeroFillValue(Digits(n), 4);
      ParseDigits(n);
    } else {
      ZeroFillValue(Digits(-n), 3);
      ParseDigits(-n);
      assert Pad4(n)[1..] == ZeroFill(Digits(-n), 3);
    }
  }

  /** Distinct indices never share a padded rendering. */
  lemma Pad4Injective(a: int, b: int)
    ensures Pad4(a) == Pad4(b) ==> a == b
  {
    Pad4Decodes(a);
    Pad4Decodes(b);
    if a >= 0 && b < 0 {
      assert !IsDigit(Pad4(b)[0]);
    } else if a < 0 && b >= 0 {
      assert !IsDigit(Pad4(a)[0]);
    }
  }

  lemma Pad4Examples()
    ensures Pad4(3) == "0003"
    ensures Pad4(15) == "0015"
    ensures Pad4(12345) == "12345"
    ensures Pad4(-3) == "-003"
  {
  }

  // ---------------------------------------------------------------------
  // Occurrences, str.replace, and the Split/Join decomposition
  // ---------------------------------------------------------------------

  /** `p` occurs in `s` starting at index `i`. */
  predicate OccursAt(s: string, p: string, i: int) {
    0 <= i && i + |p| <= |s| && s[i..i + |p|] == p
  }

  predicate Contains(s: string, p: string) {
    exists i | 0 <= i <= |s| - |p| :: OccursAt(s, p, i)
  }

  /** No character of `r` appears anywhere in `p`. */
  predicate Foreign(r: string, p: string) {
    forall i :: 0 <= i < |r| ==> r[i] !in p
  }

  /**
   * Python's `s.replace(p, r)`: scanning left to right, every occurrence of
   * `p` that does not overlap an earlier replaced one becomes `r`.
   */
  function ReplaceAll(s: string, p: string, r: string): string
    requires |p| > 0
    decreases |s|
  {
    if |s| < |p| then s
    else if s[..|p|] == p then r + ReplaceAll(s[|p|..], p, r)
    else [s[0]] + ReplaceAll(s[1..], p, r)
  }

  /** The pieces of `s` between the occurrences of `p` found by the same scan. */
  function Split(s: string, p: string): (parts: seq<string>)
    requires |p| > 0
    ensures |parts| > 0
    decreases |s|
  {
    if |s| < |p| then [s]
    else if s[..|p|] == p then [""] + Split(s[|p|..], p)
    else
      var t := Split(s[1..], p);
      [[s[0]] + t[0]] + t[1..]
  }

  /** The pieces glued together with `sep` between consecutive ones. */
  function Join(parts: seq<string>, sep: string): string
    requires |parts| > 0
    decreases |parts|
  {
    if |parts| == 1 then parts[0] else parts[0] + sep + Join(parts[1..], sep)
  }

  lemma JoinCons(c: char, t: seq<string>, sep: string)
    requires |t| > 0
    ensures Join([[c] + t[0]] + t[1..], sep) == [c] + Join(t, sep)
  {
  }

  /** Joining the pieces with the pattern itself gives back the original string. */
  lemma {:induction false} SplitJoin(s: string, p: string)
    requires |p| > 0
    ensures Join(Split(s, p), p) == s
    decreases |s|
  {
    if |s| < |p| {
    } else if s[..|p|] == p {
      var tail := Split(s[|p|..], p);
      assert Split(s, p)[1..] == tail;
      SplitJoin(s[|p|..], p);
      assert s == s[..|p|] + s[|p|..];
    } else {
      SplitJoin(s[1..], p);
      JoinCons(s[0], Split(s[1..], p), p);
      assert s == [s[0]] + s[1..];
    }
  }

  /** Replacement is re-joining the pieces with the new text. */
  lemma {:induction false} ReplaceIsJoin(s: string, p: string, r: string)
    requires |p| > 0
    ensures ReplaceAll(s, p, r) == Join(Split(s, p), r)
    decreases |s|
  {
    if |s| < |p| {
    } else if s[..|p|] == p {
      var tail := Split(s[|p|..], p);
      assert Split(s, p)[1..] == tail;
      ReplaceIsJoin(s[|p|..], p, r);
    } else {
      ReplaceIsJoin(s[1..], p, r);
      JoinCons(s[0], Split(s[1..], p), r);
    }
  }

  lemma {:induction false} SplitHeadIsPrefix(s: string, p: string)
    requires |p| > 0
    ensures |Split(s, p)[0]| <= |s| && Split(s, p)[0] == s[..|Split(s, p)[0]|]
    decreases |s|
  {
    if |s| < |p| {
    } else if s[..|p|] == p {
    } else {
      SplitHeadIsPrefix(s[1..], p);
    }
  }

  /**
   * The scan cuts at the leftmost occurrence and resumes after it: for the
   * first index `i` where `p` occurs, the first piece is `s[..i]` and the rest
   * is the split of what follows that occurrence. An occurrence overlapping
   * the one cut is therefore consumed, not cut again.
   */
  lemma {:induction false} SplitAtLeftmost(s: string, p: string, i: int)
    requires |p| > 0 && OccursAt(s, p, i)
    requires forall j :: 0 <= j < i ==> !OccursAt(s, p, j)
    ensures Split(s, p) == [s[..i]] + Split(s[i + |p|..], p)
    decreases i
  {
    if i == 0 {
      assert s[..|p|] == p;
    } else {
      assert !OccursAt(s, p, 0);
      assert s[..|p|] != p;
      var u := s[1..];
      assert OccursAt(u, p, i - 1) by {
        assert u[i - 1..i - 1 + |p|] == s[i..i + |p|];
      }
      forall j | 0 <= j < i - 1 ensures !OccursAt(u, p, j) {
        assert !OccursAt(s, p, j + 1);
        if j + |p| <= |u| {
          assert u[j..j + |p|] == s[j + 1..j + 1 + |p|];
        }
      }
      SplitAtLeftmost(u, p, i - 1);
      assert u[i - 1 + |p|..] == s[i + |p|..];
      assert [s[0]] + u[..i - 1] == s[..i];
    }
  }

  /**
   * `str.replace` at the leftmost occurrence: the text before it is kept, the
   * occurrence becomes `r`, and replacement continues after the occurrence.
   */
  lemma ReplaceAtLeftmost(s: string, p: string, r: string, i: int)
    requires |p| > 0 && OccursAt(s, p, i)
    requires forall j :: 0 <= j < i ==> !OccursAt(s, p, j)
    ensures ReplaceAll(s, p, r) == s[..i] + r + ReplaceAll(s[i + |p|..], p, r)
  {
    ReplaceIsJoin(s, p, r);
    ReplaceIsJoin(s[i + |p|..], p, r);
    SplitAtLeftmost(s, p, i);
    var rest := Split(s[i + |p|..], p);
    assert ([s[..i]] + rest)[1..] == rest;
  }

  /** No piece contains the pattern. */
  lemma {:induction false} SplitPiecesMarkerFree(s: string, p: string)
    requires |p| > 0
    ensures forall k :: 0 <= k < |Split(s, p)| ==> !Contains(Split(s, p)[k], p)
    decreases |s|
  {
    var parts := Split(s, p);
    if |s| < |p| {
      forall i ensures !OccursAt(s, p, i) {
      }
    } else if s[..|p|] == p {
      var tail := Split(s[|p|..], p);
      SplitPiecesMarkerFree(s[|p|..], p);
      forall k | 0 <= k < |parts| ensures !Contains(parts[k], p) {
        if k == 0 {
          forall i ensures !OccursAt(parts[0], p, i) {
          }
        } else {
          assert parts[k] == tail[k - 1];
        }
      }
    } else {
      var t := Split(s[1..], p);
      SplitPiecesMarkerFree(s[1..], p);
      SplitHeadIsPrefix(s[1..], p);
      var h := [s[0]] + t[0];
      assert h == s[..|h|];
      forall i ensures !OccursAt(h, p, i) {
        if i == 0 {
          if |h| >= |p| {
            assert h[..|p|] == s[..|p|];
          }
        } else if i > 0 && i + |p| <= |h| {
          assert h[i..i + |p|] == t[0][i - 1..i - 1 + |p|];
          assert !OccursAt(t[0], p, i - 1);
        }
      }
      forall k | 0 <= k < |parts| ensures !Contains(parts[k], p) {
        if k == 0 {
          assert parts[0] == h;
        } else {
          assert parts[k] == t[k];
        }
      }
    }
  }

  lemma {:induction false} NoMarkerSingleton(s: string, p: string)
    requires |p| > 0
    requires !Contains(s, p)
    ensures Split(s, p) == [s]
    decreases |s|
  {
    if |s| >= |p| {
      assert !OccursAt(s, p, 0);
      assert s[..|p|] != p;
      forall i ensures !OccursAt(s[1..], p, i) {
        if 0 <= i && i + |p| <= |s| - 1 {
          assert s[1..][i..i + |p|] == s[i + 1..i + 1 + |p|];
          assert !OccursAt(s, p, i + 1);
        }
      }
      NoMarkerSingleton(s[1..], p);
      assert [s[0]] + s[1..] == s;
    }
  }

  /** The scan cuts `s` at all exactly when `p` occurs in it. */
  lemma SplitSingletonIff(s: string, p: string)
    requires |p| > 0
    ensures |Split(s, p)| == 1 <==> !Contains(s, p)
  {
    if !Contains(s, p) {
      NoMarkerSingleton(s, p);
    }
    if |Split(s, p)| == 1 {
      SplitJoin(s, p);
      SplitPiecesMarkerFree(s, p);
    }
  }

  lemma {:induction false} JoinLengthMonotone(parts: seq<string>, a: string, b: string)
    requires |parts| > 0
    requires |a| <= |b|
    ensures |Join(parts, a)| <= |Join(parts, b)|
    ensures |parts| >= 2 && |a| < |b| ==> |Join(parts, a)| < |Join(parts, b)|
    decreases |parts|
  {
    if |parts| > 1 {
      JoinLengthMonotone(parts[1..], a, b);
    }
  }

  /** With at least two pieces, different separators give different joins. */
  lemma JoinSeparatorInjective(parts: seq<string>, a: string, b: string)
    requires |parts| >= 2
    ensures a != b ==> Join(parts, a) != Join(parts, b)
  {
    if Join(parts, a) == Join(parts, b) {
      if |a| <= |b| {
        JoinLengthMonotone(parts, a, b);
      } else {
        JoinLengthMonotone(parts, b, a);
      }
      var n := |parts[0]|;
      assert Join(parts, a)[n..n + |a|] == a;
      assert Join(parts, b)[n..n + |b|] == b;
    }
  }

  /**
   * `s.replace(p, r)` leaves `s` unchanged exactly when `p` does not occur in
   * `s` or the replacement is the pattern itself.
   */
  lemma ReplaceUnchangedIff(s: string, p: string, r: string)
    requires |p| > 0
    ensures ReplaceAll(s, p, r) == s <==> (!Contains(s, p) || r == p)
  {
    ReplaceIsJoin(s, p, r);
    SplitJoin(s, p);
    SplitSingletonIff(s, p);
    if Contains(s, p) {
      JoinSeparatorInjective(Split(s, p), r, p);
    }
  }

  lemma {:induction false} JoinForeignSeparator(parts: seq<string>, sep: string, p: string)
    requires |parts| > 0 && |sep| > 0 && |p| > 0
    requires Foreign(sep, p)
    requires forall k :: 0 <= k < |parts| ==> !Contains(parts[k], p)
    ensures !Contains(Join(parts, sep), p)
    decreases |parts|
  {
    if |parts| > 1 {
      var x := parts[0];
      var rest := parts[1..];
      assert forall k :: 0 <= k < |rest| ==> rest[k] == parts[k + 1];
      JoinForeignSeparator(rest, sep, p);
      var tail := Join(rest, sep);
      var s := x + sep + tail;
      assert Join(parts, sep) == s;
      assert !Contains(x, p);
      forall i ensures !OccursAt(s, p, i) {
        if 0 <= i && i + |p| <= |s| {
          if i + |p| <= |x| {
            assert s[i..i + |p|] == x[i..i + |p|];
            assert !OccursAt(x, p, i);
          } else if i >= |x| + |sep| {
            var j := i - |x| - |sep|;
            assert s[i..i + |p|] == tail[j..j + |p|];
            assert !OccursAt(tail, p, j);
          } else {
            var q := if i < |x| then |x| else i;
            assert s[q] == sep[q - |x|];
            assert p[q - i] in p;
            assert s[i..i + |p|][q - i] == s[q];
          }
        }
      }
    }
  }

  /**
   * When the replacement is non-empty and shares no character with the
   * pattern, no occurrence of the pattern survives `s.replace(p, r)`.
   */
  lemma ReplaceLeavesNoOccurrence(s: string, p: string, r: string)
    requires |p| > 0 && |r| > 0
    requires Foreign(r, p)
    ensures !Contains(ReplaceAll(s, p, r), p)
  {
    ReplaceIsJoin(s, p, r);
    SplitPiecesMarkerFree(s, p);
    JoinForeignSeparator(Split(s, p), r, p);
  }

  // ---------------------------------------------------------------------
  // Paths
  // ---------------------------------------------------------------------

  /** `os.path.join(a, b)` on POSIX: an absolute `b` wins, otherwise one '/' separates. */
  function PathJoin(a: string, b: string): (r: string)
    ensures |b| > 0 && b[0] == '/' ==> r == b
    ensures (|b| == 0 || b[0] != '/') ==> |r| >= |a| + |b| && r[..|a|] == a && r[|r| - |b|..] == b
    ensures (|b| == 0 || b[0] != '/') ==> r == a + b || r == a + "/" + b
    ensures (|b| == 0 || b[0] != '/') ==> (|r| == |a| + |b| + 1 <==> |a| > 0 && a[|a| - 1] != '/')
  {
    if |b| > 0 && b[0] == '/' then b
    else if a == [] || a[|a| - 1] == '/' then a + b
    else a + "/" + b
  }

  /** The index of the last '/' in `s`, or -1 when there is none. */
  function LastSlash(s: string): (k: int)
    ensures -1 <= k < |s|
    ensures k >= 0 ==> s[k] == '/'
    ensures forall j :: k < j < |s| ==> s[j] != '/'
  {
    if |s| == 0 then -1
    else if s[|s| - 1] == '/' then |s| - 1
    else LastSlash(s[..|s| - 1])
  }

  /** `os.path.basename`: what follows the last '/'. */
  function Basename(s: string): (r: string)
    ensures forall j :: 0 <= j < |r| ==> r[j] != '/'
    ensures |r| <= |s| && r == s[|s| - |r|..]
  {
    s[LastSlash(s) + 1..]
  }

  /** Joining a single path component onto any directory yields a path whose basename is that component. */
  lemma {:induction false} PathJoinBasename(a: string, b: string)
    requires |b| > 0 && forall j :: 0 <= j < |b| ==> b[j] != '/'
    ensures Basename(PathJoin(a, b)) == b
  {
    var r := PathJoin(a, b);
    var n := |r| - |b|;
    assert r[n..] == b;
    assert forall j :: n <= j < |r| ==> r[j] == b[j - n];
    var k := LastSlash(r);
    if n > 0 {
      assert r[n - 1] == '/';
    }
    assert k == n - 1;
  }
}

=== FILE: wrappers.dfy ===
/**
 * The two outcome types the model needs. `Option` stands for Python's
 * `Optional` fields; `Result` stands for a call that either returns or
 * raises. Both support Dafny's `:-` so that a raised error propagates the
 * way a Python exception leaves the enclosing function.
 */
module Wrappers {

  /** A field that is `None` until something stores a value in it. */
  datatype Option<+T> = None | Some(value: T) {

    // `:-` stops at `None` ...
    predicate IsFailure() {
      None?
    }

    // ... hands `None` on at whatever type the caller returns ...
    function PropagateFailure<U>(): Option<U>
      requires None?
    {
      None
    }

    // ... and otherwise continues with the stored value.
    function Extract(): T
      requires Some?
    {
      value
    }
  }

  /** What a call produced: its value, or the exception it raised. */
  datatype Result<+T, +E> = Success(value: T) | Failure(error: E) {

    // An exception ends the computation that `:-` guards ...
    predicate IsFailure() {
      Failure?
    }

    // ... and is re-raised unchanged from the caller ...
    function PropagateFailure<U>(): Result<U, E>
      requires Failure?
    {
      Failure(error)
    }

    // ... while a returned value flows on.
    function Extract(): T
      requires Success?
    {
      value
    }
  }
}
